=== FILE: README.md ===
# Hosting control panel: workspace tree and server registry

This project is a Dafny model of the logic that runs in a browser-only
control panel for hosted "bot" servers. The panel keeps two kinds of
in-memory records, and every operation on them is a pure list
transformation:

- **Workspace file tree** (`FileManager` module). A server's files form a
  flat list of entries keyed by a slash-separated `path`. Directories exist
  only through path prefixes. The module models:
  - the directory listing, using the parent-of-path rule;
  - the "up" button;
  - create, with its duplicate check;
  - subtree delete by the prefix `target + "/"`;
  - rename, which rewrites the prefix of every descendant;
  - save from the editor;
  - the merge step of an upload.
- **Server registry** (`App`, `AdminPanel`, `ServerView` and `Login`
  modules). This part models:
  - the seeded server, with its random port and live URL;
  - normalisation of the authorised-user list around the built-in
    administrator;
  - the owner/admin visibility filter;
  - the selected server;
  - the START/STOP/RESTART reducer and the file and settings reducers;
  - delete-by-id;
  - the admin panel's suspend toggle and its confirmed delete;
  - the Start/Stop button guards and the per-id routing of the server
    page's callbacks;
  - the login check.

Supporting modules:

- `Wrappers` holds `Option` and `Result`.
- `JsStrings` spells out the JavaScript string semantics the code depends on:
  - `lastIndexOf` returns -1 when the character is absent;
  - `substring(0, k)` treats a negative `k` as 0;
  - `trim` strips the ECMAScript white-space and line-terminator set;
  - `null` and `""` are both falsy;
  - a number inside a template literal is rendered in decimal.
- `Seqs` holds an order-preserving `filter` and `findIndex`.

The record types live in `Types`:

- `ServerStatus` has exactly four values: Running, Stopped, Starting and
  Suspended.
- `FileEntry` has a `kind` of File or Directory.
- On a `FileEntry`, `size` and `content` are optional.
- A `BotServer` owns its `files` list and carries cpu/ram/disk triples for
  both `limits` and `usage`.
- `User` is imported from `types.ts` but is not declared there. Its shape
  (`username`, `passwordHash`) comes from `App.tsx:45` and
  `components/Login.tsx:20-21`.

Lifecycle transitions follow the code as written, which does
not guard them:

- START moves a suspended server to RUNNING (`App.tsx:166`).
- The Start button is offered for a suspended server
  (`components/ServerView.tsx:61`).
- The suspend toggle sends RUNNING and STARTING straight to SUSPENDED.
- Any server can be deleted, whatever its status.
- Rename does not check for collisions and can produce duplicate paths
  (`RenameOntoExistingDuplicates`).
- Rename does not refuse a `/` in the new name, and such a name moves
  the entry into another directory (`SlashInNameLeavesDirectory`).

Inputs that come from the browser are parameters of the model:

| input | parameter |
|---|---|
| `Math.random()` | a real `draw` in [0, 1) |
| `new Date().toLocaleDateString()` | an opaque `now` string |
| `FileReader` output | the uploaded `text`, name and size |
| decoded localStorage lists | `Option` values |

## Model

| member | source | states |
|---|---|---|
| JsStrings.LastIndexOf | components/FileManager.tsx:26 | `lastIndexOf('/')` is -1 or a position holding the character. No later position holds it. |
| JsStrings.SubstringTo | components/FileManager.tsx:27 | `substring(0, k)` is a prefix of the string. It has length `k` when `k` is in range, and is empty when `k <= 0`, so a -1 from `lastIndexOf` gives `""`. |
| JsStrings.Trim | components/FileManager.tsx:48-49 | `trim()` removes only leading and trailing white space. Its result is empty exactly when the input is all white space. Otherwise the result neither starts nor ends with white space. |
| JsStrings.NatToString | App.tsx:29 | A port renders as a non-empty string of decimal digits with no leading zero. |
| FileManager.ParentPath | components/FileManager.tsx:26-27 | The parent of a path is the text before its last `/`, or `/` when that slash is at index 0. A path without any `/` has the empty parent. |
| FileManager.JoinChild | components/FileManager.tsx:50 | The joined path ends in `/` and then the name. It starts with the directory unless the directory is `/`, and its length is exactly that of those parts. |
| FileManager.ParentOfJoinChild | components/FileManager.tsx:26-50 | A child path built by create or upload from a non-empty directory and a name without `/` has exactly that directory as its parent. |
| FileManager.Listing | components/FileManager.tsx:24-31 | The listing holds exactly the entries whose parent equals the current path, and it is never longer than the file list. With `ListingKeepsOrder`, this fixes the result as the ordered filter, each entry listed once. |
| FileManager.ListingKeepsOrder | components/FileManager.tsx:25 | The listing keeps the entries' original order: listing a concatenation is concatenating the listings. |
| FileManager.NavigateUp | components/FileManager.tsx:33-38 | "Up" is a no-op at `/`. Elsewhere it moves to the text before the last `/`, or to `/` when that text is empty or there is no `/`. It strictly decreases a measure that is 0 only at `/`. |
| FileManager.NavigateUpIsParent | components/FileManager.tsx:26-36 | Below the root, for a path containing `/`, "up" lands in the directory whose listing shows the current path. |
| FileManager.StepsToRoot | components/FileManager.tsx:33-38 | From any path, repeated "up" reaches `/` in at most `length + 1` presses. |
| FileManager.Create | components/FileManager.tsx:47-66 | A blank name (after trimming) is refused. A name whose joined path is taken is refused. Otherwise exactly one entry is appended with the trimmed name, the joined path, the chosen kind and the timestamp; earlier entries are untouched. A file gets content `""` and size 0; a directory gets neither. |
| FileManager.CreateKeepsPathsUnique | components/FileManager.tsx:52-66 | Because of the duplicate check, a successful create keeps paths unique. |
| FileManager.CreatedEntryIsListed | components/FileManager.tsx:50-66 | An entry created without a `/` in its name shows up in the listing of the directory it was created from. |
| FileManager.Delete | components/FileManager.tsx:70-74 | A null or empty target changes nothing. Otherwise the survivors are exactly the entries that are neither the target nor under `target + "/"`, and the list never grows. |
| FileManager.DeleteKeepsOrder | components/FileManager.tsx:72 | Survivors keep their relative order. |
| FileManager.DeleteMultiplicity | components/FileManager.tsx:72 | Counted with multiplicity, every copy of an entry inside the target's subtree is gone and every other entry keeps all its copies. A falsy target keeps everything. |
| FileManager.DeleteKeepsPathsUnique | components/FileManager.tsx:72 | Delete never creates a duplicate path. |
| FileManager.SiblingIsNotInSubtree | components/FileManager.tsx:72 | A path that extends the target by anything not starting with `/` (`/srcx` beside `/src`) is outside the deleted subtree. |
| FileManager.DeleteSrcSparesSrcx | components/FileManager.tsx:72 | Deleting `/src` from `/index.js, /src, /src/a.js, /srcx` leaves `/index.js, /srcx`. |
| FileManager.RenamedBase | components/FileManager.tsx:81-83 | The renamed path ends in `/` and then the new name. It begins with the target's text before its last `/`, and it is `/` + name when the target has no `/`. |
| FileManager.RenameEntry | components/FileManager.tsx:79-92 | An entry outside the target's subtree is unchanged. The target and its descendants move under the new base and keep the part of the path after the old target. Only the target takes the new display name, and no field besides name and path changes. |
| FileManager.RenamedBaseIsSibling | components/FileManager.tsx:81-89 | Unless the target starts with `//`, the new base is the target's parent joined with the new name. A name containing `/` makes the joined path deeper, so this alone does not keep the entry in its listing. |
| FileManager.RenamedBaseStaysListed | components/FileManager.tsx:79-84 | A renamed target whose new name has no `/` keeps its parent, so it stays in the listing it was renamed from. |
| FileManager.SlashInNameLeavesDirectory | components/FileManager.tsx:77-83 | The rename accepts `b/c` as the new name of `/a`, giving `/b/c`. Its parent is `/b`, while `/a` was listed under `/`. |
| FileManager.Rename | components/FileManager.tsx:76-96 | Length is preserved. A falsy target or a blank name changes nothing. The target gets the trimmed name and the new base path. Each descendant gets the new base plus its old suffix after the target, and no other field changes. Every other entry is untouched. |
| FileManager.RenameOntoExistingDuplicates | components/FileManager.tsx:76-96 | There is no collision check: renaming `/a` to `b` beside `/b` yields two entries at `/b`. |
| FileManager.RenameSrcToSource | components/FileManager.tsx:86-90 | Renaming `/src` to `source` turns `/src/a.js` into `/source/a.js`, and `/src/a.js` no longer exists. |
| FileManager.RenameRoundTrip | components/FileManager.tsx:76-96 | Rename followed by a rename back restores every path when the new base was free. Every entry except the target is restored exactly; the target gets its old segment as its name. |
| FileManager.Save | components/FileManager.tsx:40-45 | A falsy selection changes nothing. Otherwise only the content and timestamp of entries at the selected path change, to the edited text and the current time. Length and paths are unchanged. |
| FileManager.SaveIdempotent | components/FileManager.tsx:42 | Saving the same text twice is the same as saving it once. |
| FileManager.UploadedEntry | components/FileManager.tsx:111-120 | An upload builds a file entry with the browser's name, size and text and the current time. Its path is the name joined onto the directory being browsed, the key the merge matches on. For a non-empty directory and a name without `/`, its parent is the directory being browsed. |
| FileManager.MergeUpload | components/FileManager.tsx:122-129 | When the path exists, the entry replaces the first entry with that path, and the length is unchanged. Any entry that changes is at that first index. Otherwise the entry is appended and the length grows by one. Entries at other paths are untouched. |
| FileManager.MergeUploadKeepsPathsUnique | components/FileManager.tsx:122-129 | Unique paths stay unique after an upload. |
| FileManager.UploadIsListed | components/FileManager.tsx:111-129 | An uploaded file whose name has no `/` appears in the listing of the directory it was uploaded from, whether it replaced an entry or was appended. |
| Login.HandleSubmit | components/Login.tsx:15-29 | Login succeeds exactly when some user's name equals the trimmed username and its hash equals the untrimmed password. On success the error is cleared and `onLogin` gets the first match's stored name. On failure the fixed error message is shown. The earlier error plays no part. |
| Login.SubmitIgnoresSurroundingSpaces | components/Login.tsx:19-22 | Submitting the trimmed username gives exactly the same outcome as submitting it with its surrounding white space. |
| ServerView.StartEnabled | components/ServerView.tsx:61 | Start is offered in the STOPPED, STARTING and SUSPENDED states, so only while RUNNING is it disabled. |
| ServerView.StopEnabled | components/ServerView.tsx:68 | Stop is offered in the RUNNING, STARTING and SUSPENDED states, so only while STOPPED is it disabled. |
| ServerView.BothButtonsWhileStartingOrSuspended | components/ServerView.tsx:59-72 | Start and Stop are both offered exactly for STARTING and SUSPENDED. At least one of them is always offered. |
| ServerView.Route | components/ServerView.tsx:59-111 | Every callback the page fires carries the page's `server.id`. An enabled Start fires START and an enabled Stop fires STOP. A click on a disabled Start or Stop fires nothing. Files, settings and delete requests pass their payload through unchanged. |
| AdminPanel.ToggledTwice | components/AdminPanel.tsx:16 | Two toggles restore STOPPED and SUSPENDED. They send RUNNING and STARTING to STOPPED. |
| AdminPanel.Toggled | components/AdminPanel.tsx:16 | The toggle always changes the status. It gives SUSPENDED exactly when the status was not SUSPENDED, and STOPPED exactly when it was. |
| AdminPanel.ToggleSuspend | components/AdminPanel.tsx:13-18 | On matching-id servers, SUSPENDED becomes STOPPED and every other status becomes SUSPENDED, with no other field changed. Other servers and the order are untouched. |
| AdminPanel.ToggleSuspendTwice | components/AdminPanel.tsx:13-18 | Toggling one id twice restores the list, except that its running or starting servers end up stopped. |
| AdminPanel.ConfirmedDelete | components/AdminPanel.tsx:20-24 | With no pending id nothing happens. Otherwise exactly the servers with the pending id are removed, the list never grows, and the pending id is cleared. |
| AdminPanel.Step | components/AdminPanel.tsx:64-107 | Only "Delete Now" can change the number of servers. The delete button only records the pending id, and Cancel only clears it. A suspend toggle keeps the pending id and every other id's servers, and flips the status of that id's servers as `Toggled` does. After "Delete Now" nothing is pending. |
| AdminPanel.DeletionNeedsConfirmation | components/AdminPanel.tsx:13-107 | Only "Delete Now" with a pending id can shorten the list, and only servers with that id can disappear. |
| AdminPanel.DeleteThenConfirm | components/AdminPanel.tsx:20-73 | The delete button followed by "Delete Now" removes exactly that id's servers, in order, and leaves nothing pending. |
| AdminPanel.CancelKeepsServers | components/AdminPanel.tsx:20-107 | Delete, Cancel, then "Delete Now" removes nothing. |
| App.GeneratePort | App.tsx:15 | For any draw in [0, 1), the port is in [1024, 65535]. |
| App.LiveUrlNamesPort | App.tsx:29 | The live URL is `http://` + host + `:` followed by the port's digits, and those digits parse back to the port. |
| App.CreateInitialServer | App.tsx:17-35 | The seeded server's port is in range and its URL names that same port. It is owned by `admin`, is RUNNING, and its two files have distinct paths. |
| App.NormalizeUsers | App.tsx:43-57 | The result always contains the built-in admin, and every `admin` entry in it is the built-in one. With no saved list the result is exactly `[admin]`. When the saved list has no admin, the admin is prepended. Otherwise the list is rewritten in place and other users are untouched. |
| App.NormalizeKeepsOtherUsers | App.tsx:50-54 | The non-admin users survive normalisation, in stored order. |
| App.NormalizeIdempotent | App.tsx:43-71 | Persisting the normalised list and loading it again changes nothing. |
| App.AdminCanAlwaysLogIn | App.tsx:45-56 | Whatever list was stored, logging in as `admin` with the built-in password succeeds. |
| App.VisibleServers | App.tsx:104-105 | The admin sees all servers. Any other user sees exactly the servers they own. |
| App.VisibleServersKeepOrder | App.tsx:105 | A user's view keeps the registry order. |
| App.OwnerOfAllSeesAll | App.tsx:105 | A user who owns every server sees the whole list. |
| App.SelectedServer | App.tsx:74-76 | The selected server is the first one with the selected id, or none when no server has it. |
| App.OnAction | App.tsx:165-167 | For matching-id servers only, START and RESTART give RUNNING and STOP gives STOPPED, whatever the prior status (SUSPENDED included). No other field changes. |
| App.OnUpdateFiles | App.tsx:168 | Only `files` of the matching-id servers changes. |
| App.OnUpdateSettings | App.tsx:169 | Only `startupCommand` and `mainFile` of the matching-id servers change. |
| App.ButtonOfferedIffEffective | components/ServerView.tsx:59-72 | Start is offered exactly when START would change the status, and Stop exactly when STOP would. |
| App.HandleDeleteServer | App.tsx:96-100 | Exactly the servers with that id are removed, and the list never grows. With `DeleteServerKeepsOrder`, this fixes the result as the ordered filter. The selection is cleared and the dashboard is shown. |
| App.DeleteServerKeepsOrder | App.tsx:97 | The remaining servers keep their order. |
| App.PageTouchesOnlyItsServer | App.tsx:160-171 | Any non-delete request from a server's page changes only servers with that page's id, and never their id, owner, port or URL. |
| App.Dispatch | App.tsx:160-171 | The session and the user list never change. A lifecycle, files or settings request keeps the length, view and selection, and rewrites only servers with the request's id. On those servers, a lifecycle request sets the status START/RESTART → RUNNING, STOP → STOPPED. A files request sets the files, and a settings request sets the startup command and main file. A delete removes exactly the servers with that id, keeps every other server, and returns to the dashboard with nothing selected. |
| App.HandleLogin | App.tsx:78-81 | The name from the login form becomes the session user, and nothing else changes. |
| App.HandleLogout | App.tsx:83-88 | Logout ends the session, clears the selection and shows the dashboard, keeping the servers and the user list. |
| App.LoginAfterLogoutStartsFresh | App.tsx:78-88 | Whoever logs in after a logout starts on the dashboard with no server on show. |
| App.NavigateToServer | App.tsx:90-94 | Choosing a server selects its id and opens the console, and nothing else changes. |
| App.NavigateShowsServer | App.tsx:74-92 | After choosing a server from the registry, a server with that id is on show. It is exactly the chosen server when no earlier server shares its id. |
| App.AdminLoginSeesEverything | App.tsx:78-105 | Logging in through the form as the built-in admin opens a session that sees every server. |

## Left out

- Strings: JavaScript strings are sequences of UTF-16 code units, and `lastIndexOf`, `length` and `substring` count code units. Here strings are sequences of Unicode scalar values. Indices differ for characters outside the Basic Multilingual Plane. For well-formed input, the strings these operations produce are the same. A lone surrogate cannot be represented.
- `backend-logic-reference.ts`: everything in it sits inside a block comment, so nothing there runs. The container supervisor, resource limiter and streaming sessions it sketches are not part of this model.
- `components/Shell.tsx` and `components/Console.tsx`: fixed display text on timers and random delays. The console's 500-line cap only buffers the display.
- `components/Dashboard.tsx`, `components/Sidebar.tsx`, `components/Settings.tsx`: markup and pass-through callbacks. The `confirm()` dialog before a settings delete is browser I/O; the model takes over from the `onDelete` call.
- localStorage reads and writes and `JSON.parse` (App.tsx:38, 60-72) are browser I/O. The model starts from the decoded value as an `Option`. A stored empty string is falsy in the source, just like a missing entry, and both appear here as `None`.
- `FileReader` in the upload handler is browser I/O. Only the merge step and the entry it builds are modelled.
- Timestamps and display formatting (`toLocaleDateString`, `toFixed`, KB sizes) are left out. `lastModified` is an opaque string parameter.
- Floating point: the port draw is modelled with exact reals. The source multiplies IEEE doubles; the result range is the same.
- Modal open/close, view switching and sidebar state (including `setIsSidebarOpen(false)` in `navigateToServer`) are presentation. The `localStorage` writes in `handleLogin` and `handleLogout` are browser I/O, like the other storage calls.
- The `setServers` calls of `AdminPanel` are modelled on the list the panel receives, not through React's updater queue.

=== FILE: admin_panel.dfy ===
/** The admin panel: suspend toggles and a delete that waits for confirmation. */
module AdminPanel {
  import opened Wrappers
  import opened JsStrings
  import opened Seqs
  import opened Types

  /** The suspend button: a suspended server becomes stopped, any other becomes suspended. */
  function Toggled(status: ServerStatus): (r: ServerStatus)
    ensures r != status
    ensures r == Suspended <==> status != Suspended
    ensures r == Stopped <==> status == Suspended
  {
    if status == Suspended then Stopped else Suspended
  }

  /** Two presses of the suspend button give the status back only from the
      stopped and suspended states; a running or starting server ends up stopped. */
  lemma ToggledTwice(status: ServerStatus)
    ensures Toggled(Toggled(status)) == if status == Running || status == Starting then Stopped else status
  {
  }

  /** `toggleSuspend(id)`: flips the status of the servers with that id;
      every other field, every other server and the order stay as they were. */
  function ToggleSuspend(servers: seq<BotServer>, id: string): (r: seq<BotServer>)
    ensures |r| == |servers|
    ensures forall i :: 0 <= i < |servers| && servers[i].id == id ==>
              && (r[i].status == Suspended <==> servers[i].status != Suspended)
              && (r[i].status == Stopped <==> servers[i].status == Suspended)
              && r[i].(status := servers[i].status) == servers[i]
    ensures forall i :: 0 <= i < |servers| && servers[i].id != id ==> r[i] == servers[i]
  {
    seq(|servers|, i requires 0 <= i < |servers| =>
      if servers[i].id != id then servers[i] else servers[i].(status := Toggled(servers[i].status)))
  }

  /** Toggling a server twice restores everything except that a running or
      starting server is left stopped. */
  lemma ToggleSuspendTwice(servers: seq<BotServer>, id: string)
    ensures var r := ToggleSuspend(ToggleSuspend(servers, id), id);
            && |r| == |servers|
            && forall i :: 0 <= i < |servers| ==>
                 r[i] == if servers[i].id == id && (servers[i].status == Running || servers[i].status == Starting)
                         then servers[i].(status := Stopped) else servers[i]
  {
    var once := ToggleSuspend(servers, id);
    var r := ToggleSuspend(once, id);
    forall i | 0 <= i < |servers|
      ensures r[i] == if servers[i].id == id && (servers[i].status == Running || servers[i].status == Starting)
                      then servers[i].(status := Stopped) else servers[i]
    {
      if servers[i].id == id {
        ToggledTwice(servers[i].status);
      }
    }
  }

  /** The panel's own state: the server list and the id awaiting confirmation. */
  datatype Panel = Panel(servers: seq<BotServer>, confirming: Option<string>)

  /** "Delete Now": with nothing pending nothing happens; otherwise exactly the
      servers with the pending id go, the rest stay in order, and the pending
      id is cleared. */
  function ConfirmedDelete(p: Panel): (r: Panel)
    ensures !Truthy(p.confirming) ==> r == p
    ensures |r.servers| <= |p.servers|
    ensures Truthy(p.confirming) ==>
              && r.confirming == None
              && (forall i :: 0 <= i < |r.servers| ==> r.servers[i] in p.servers && r.servers[i].id != p.confirming.value)
              && (forall i :: 0 <= i < |p.servers| && p.servers[i].id != p.confirming.value ==> p.servers[i] in r.servers)
  {
    if !Truthy(p.confirming) then p
    else Panel(Filter(p.servers, (s: BotServer) => s.id != p.confirming.value), None)
  }

  /** The buttons of the panel. */
  datatype Click =
    | SuspendClicked(id: string)
    | DeleteClicked(id: string)
    | CancelClicked
    | DeleteNowClicked

  /** The panel's reaction to one click: only "Delete Now" can change the
      number of servers, the delete button only records which id is pending,
      cancelling clears it, a suspend toggle leaves other ids' servers alone,
      and after "Delete Now" nothing is pending. */
  function Step(p: Panel, c: Click): (r: Panel)
    ensures !c.DeleteNowClicked? ==> |r.servers| == |p.servers|
    ensures c.DeleteClicked? ==> r == p.(confirming := Some(c.id))
    ensures c.CancelClicked? ==> r == p.(confirming := None)
    ensures c.SuspendClicked? ==>
              && r.confirming == p.confirming
              && forall i :: 0 <= i < |p.servers| && p.servers[i].id != c.id ==> r.servers[i] == p.servers[i]
    ensures c.SuspendClicked? ==>
              forall i :: 0 <= i < |p.servers| && p.servers[i].id == c.id ==>
                r.servers[i].status == Toggled(p.servers[i].status)
    ensures c.DeleteNowClicked? ==> !Truthy(r.confirming)
  {
    match c
    case SuspendClicked(id) => p.(servers := ToggleSuspend(p.servers, id))
    case DeleteClicked(id) => p.(confirming := Some(id))
    case CancelClicked => p.(confirming := None)
    case DeleteNowClicked => ConfirmedDelete(p)
  }

  /** A click can only shorten the server list when it is "Delete Now" with a
      pending id, and then only servers with that id disappear. */
  lemma DeletionNeedsConfirmation(p: Panel, c: Click)
    ensures |Step(p, c).servers| < |p.servers| ==> c == DeleteNowClicked && Truthy(p.confirming)
    ensures c != DeleteNowClicked ==> |Step(p, c).servers| == |p.servers|
    ensures forall i :: 0 <= i < |p.servers| && p.servers[i] !in Step(p, c).servers ==>
              c.SuspendClicked? || (c == DeleteNowClicked && Truthy(p.confirming) && p.servers[i].id == p.confirming.value)
  {
  }

  /** The delete button followed by "Delete Now" removes exactly the servers
      with the clicked id, keeps the rest in order and leaves nothing pending. */
  lemma DeleteThenConfirm(p: Panel, id: string)
    requires id != ""
    ensures var r := Step(Step(p, DeleteClicked(id)), DeleteNowClicked);
            && r.confirming == None
            && r.servers == Filter(p.servers, (s: BotServer) => s.id != id)
  {
  }

  /** A cancelled confirmation deletes nothing, whatever was pending. */
  lemma CancelKeepsServers(p: Panel, id: string)
    ensures Step(Step(Step(p, DeleteClicked(id)), CancelClicked), DeleteNowClicked) == p.(confirming := None)
  {
  }
}

=== FILE: app.dfy ===
/** The application shell: the seeded server, the authorised-user list, the
    owner/admin view of the registry and the reducers that the server page's
    callbacks drive. */
module App {
  import opened Wrappers
  import opened JsStrings
  import opened Seqs
  import opened Types
  import Login
  import ServerView

  const ADMIN_USERNAME: string := "admin"
  const ADMIN_PASSWORD: string := "@mahabub#45"
  const HOST_IP: string := "157.173.120.35"

  /** How many ports the random draw chooses from: 1024 through 65535. */
  const PORT_SPAN: int := 65535 - 1024 + 1

  /** `Math.floor(draw * PORT_SPAN) + 1024` for a draw of `Math.random()`. */
  function GeneratePort(draw: real): (port: int)
    requires 0.0 <= draw < 1.0
    ensures 1024 <= port <= 65535
  {
    var scaled := draw * PORT_SPAN as real;
    assert 0.0 <= scaled < PORT_SPAN as real;
    scaled.Floor + 1024
  }

  /** The public address of a server listening on `port`. */
  function LiveUrl(port: nat): string {
    "http://" + HOST_IP + ":" + NatToString(port)
  }

  /** The port can be read back from the address. */
  lemma LiveUrlNamesPort(port: nat)
    ensures var prefix := "http://" + HOST_IP + ":";
            && StartsWith(LiveUrl(port), prefix)
            && LiveUrl(port)[|prefix|..] == NatToString(port)
            && ParseNat(LiveUrl(port)[|prefix|..]) == port
  {
    var prefix := "http://" + HOST_IP + ":";
    assert LiveUrl(port)[|prefix|..] == NatToString(port);
    ParseNatToString(port);
  }

  /** The server seeded on first start. Its address names the very port stored on it. */
  function CreateInitialServer(draw: real): (s: BotServer)
    requires 0.0 <= draw < 1.0
    ensures 1024 <= s.port <= 65535
    ensures s.liveUrl == LiveUrl(s.port)
    ensures s.owner == ADMIN_USERNAME && s.status == Running
    ensures UniquePaths(s.files)
  {
    var port := GeneratePort(draw);
    BotServer(
      "srv-001", "Primary Node", ADMIN_USERNAME, Running,
      ServerResource(0.0, 0.0, 0.0), ServerResource(0.12, 102.0, 0.8),
      "npm start", "index.js", port, LiveUrl(port),
      [ FileEntry("index.js", "/index.js", File, None, "Nov 22, 2023", Some("console.log(\"NexusNode active.\");")),
        FileEntry("src", "/src", Directory, None, "Nov 22, 2023", None) ])
  }

  /** The built-in administrator account. */
  const DEFAULT_ADMIN: User := User(ADMIN_USERNAME, ADMIN_PASSWORD)

  predicate HasAdmin(users: seq<User>) {
    exists i :: 0 <= i < |users| && users[i].username == ADMIN_USERNAME
  }

  /** The user list loaded at start-up (`saved` is the decoded stored list, if
      any). The administrator is always present with the built-in password:
      prepended when missing, overwritten wherever present; everyone else is
      kept as stored. */
  function NormalizeUsers(saved: Option<seq<User>>): (r: seq<User>)
    ensures DEFAULT_ADMIN in r
    ensures forall i :: 0 <= i < |r| && r[i].username == ADMIN_USERNAME ==> r[i] == DEFAULT_ADMIN
    ensures saved.None? ==> r == [DEFAULT_ADMIN]
    ensures saved.Some? && !HasAdmin(saved.value) ==> r == [DEFAULT_ADMIN] + saved.value
    ensures saved.Some? && HasAdmin(saved.value) ==>
              && |r| == |saved.value|
              && forall i :: 0 <= i < |r| && saved.value[i].username != ADMIN_USERNAME ==> r[i] == saved.value[i]
  {
    match saved
    case None => [DEFAULT_ADMIN]
    case Some(parsed) =>
      if !HasAdmin(parsed) then [DEFAULT_ADMIN] + parsed
      else
        var r := seq(|parsed|, i requires 0 <= i < |parsed| =>
                   if parsed[i].username == ADMIN_USERNAME then DEFAULT_ADMIN else parsed[i]);
        var k :| 0 <= k < |parsed| && parsed[k].username == ADMIN_USERNAME;
        assert r[k] == DEFAULT_ADMIN;
        r
  }

  /** Every non-administrator entry survives normalisation, in stored order. */
  lemma NormalizeKeepsOtherUsers(saved: seq<User>)
    ensures var notAdmin := (u: User) => u.username != ADMIN_USERNAME;
            Filter(NormalizeUsers(Some(saved)), notAdmin) == Filter(saved, notAdmin)
  {
    var notAdmin := (u: User) => u.username != ADMIN_USERNAME;
    var r := NormalizeUsers(Some(saved));
    if !HasAdmin(saved) {
      FilterConcat([DEFAULT_ADMIN], saved, notAdmin);
      assert Filter([DEFAULT_ADMIN], notAdmin) == [];
    } else {
      FilterAgree(r, saved, notAdmin);
    }
  }

  /** Storing the normalised list and loading it again changes nothing. */
  lemma NormalizeIdempotent(saved: Option<seq<User>>)
    ensures NormalizeUsers(Some(NormalizeUsers(saved))) == NormalizeUsers(saved)
  {
    var r := NormalizeUsers(saved);
    assert HasAdmin(r) by {
      var k :| 0 <= k < |r| && r[k] == DEFAULT_ADMIN;
    }
  }

  /** Whatever list was stored, the administrator can log in with the built-in password. */
  lemma AdminCanAlwaysLogIn(saved: Option<seq<User>>, username: string)
    requires Trim(username) == ADMIN_USERNAME
    ensures Login.HandleSubmit(NormalizeUsers(saved), username, ADMIN_PASSWORD).loggedInAs
            == Some(ADMIN_USERNAME)
  {
    var users := NormalizeUsers(saved);
    var k :| 0 <= k < |users| && users[k] == DEFAULT_ADMIN;
    assert Login.Matches(users[k], username, ADMIN_PASSWORD);
  }

  predicate IsAdmin(user: string) {
    user == ADMIN_USERNAME
  }

  /** The servers a user is shown: all of them for the administrator, otherwise
      exactly the ones the user owns. */
  function VisibleServers(servers: seq<BotServer>, user: string): (r: seq<BotServer>)
    ensures IsAdmin(user) ==> r == servers
    ensures !IsAdmin(user) ==> forall i :: 0 <= i < |r| ==> r[i] in servers && r[i].owner == user
    ensures !IsAdmin(user) ==> forall i :: 0 <= i < |servers| && servers[i].owner == user ==> servers[i] in r
  {
    if IsAdmin(user) then servers else Filter(servers, (s: BotServer) => s.owner == user)
  }

  /** A user's view keeps the registry's order. */
  lemma {:induction false} VisibleServersKeepOrder(a: seq<BotServer>, b: seq<BotServer>, user: string)
    ensures VisibleServers(a + b, user) == VisibleServers(a, user) + VisibleServers(b, user)
  {
    if !IsAdmin(user) {
      FilterConcat(a, b, (s: BotServer) => s.owner == user);
    }
  }

  /** A user who owns every server sees the whole registry, like the administrator. */
  lemma OwnerOfAllSeesAll(servers: seq<BotServer>, user: string)
    requires forall i :: 0 <= i < |servers| ==> servers[i].owner == user
    ensures VisibleServers(servers, user) == servers
  {
    if !IsAdmin(user) {
      FilterKeepsAll(servers, (s: BotServer) => s.owner == user);
    }
  }

  /** The server on show: the first one carrying the selected id, or none. */
  function SelectedServer(servers: seq<BotServer>, selected: Option<string>): (r: Option<BotServer>)
    ensures r.Some? <==> selected.Some? && exists i :: 0 <= i < |servers| && servers[i].id == selected.value
    ensures r.Some? ==>
              && r.value.id == selected.value
              && exists i :: 0 <= i < |servers| && servers[i] == r.value
                             && forall j :: 0 <= j < i ==> servers[j].id != selected.value
  {
    if selected.None? then None
    else
      var k := FindIndex(servers, (s: BotServer) => s.id == selected.value);
      if k >= 0 then Some(servers[k]) else None
  }

  /** The status the lifecycle buttons ask for; the current status is not consulted. */
  function ActionStatus(action: ServerView.Action): ServerStatus {
    if action == ServerView.Start || action == ServerView.Restart then Running else Stopped
  }

  /** `onAction`: START and RESTART set RUNNING and STOP sets STOPPED, on the
      servers with the given id only, whatever their status was (a suspended
      server can be started). */
  function OnAction(servers: seq<BotServer>, id: string, action: ServerView.Action): (r: seq<BotServer>)
    ensures |r| == |servers|
    ensures forall i :: 0 <= i < |servers| && servers[i].id == id ==>
              && r[i].(status := servers[i].status) == servers[i]
              && (r[i].status == Running <==> action != ServerView.Stop)
              && (r[i].status == Stopped <==> action == ServerView.Stop)
    ensures forall i :: 0 <= i < |servers| && servers[i].id != id ==> r[i] == servers[i]
  {
    seq(|servers|, i requires 0 <= i < |servers| =>
      if servers[i].id == id then servers[i].(status := ActionStatus(action)) else servers[i])
  }

  /** `onUpdateFiles`: the given servers' file lists are replaced, nothing else. */
  function OnUpdateFiles(servers: seq<BotServer>, id: string, files: seq<FileEntry>): (r: seq<BotServer>)
    ensures |r| == |servers|
    ensures forall i :: 0 <= i < |servers| && servers[i].id == id ==>
              r[i].files == files && r[i].(files := servers[i].files) == servers[i]
    ensures forall i :: 0 <= i < |servers| && servers[i].id != id ==> r[i] == servers[i]
  {
    seq(|servers|, i requires 0 <= i < |servers| =>
      if servers[i].id == id then servers[i].(files := files) else servers[i])
  }

  /** `onUpdateSettings`: the given servers' startup command and main file are
      replaced, nothing else. */
  function OnUpdateSettings(servers: seq<BotServer>, id: string, startupCommand: string, mainFile: string)
    : (r: seq<BotServer>)
    ensures |r| == |servers|
    ensures forall i :: 0 <= i < |servers| && servers[i].id == id ==>
              && r[i].startupCommand == startupCommand && r[i].mainFile == mainFile
              && r[i].(startupCommand := servers[i].startupCommand, mainFile := servers[i].mainFile) == servers[i]
    ensures forall i :: 0 <= i < |servers| && servers[i].id != id ==> r[i] == servers[i]
  {
    seq(|servers|, i requires 0 <= i < |servers| =>
      if servers[i].id == id then servers[i].(startupCommand := startupCommand, mainFile := mainFile)
      else servers[i])
  }

  /** A lifecycle button is offered exactly when pressing it would change the server's status. */
  lemma ButtonOfferedIffEffective(servers: seq<BotServer>, i: nat)
    requires i < |servers|
    ensures ServerView.StartEnabled(servers[i].status) <==>
              OnAction(servers, servers[i].id, ServerView.Start)[i].status != servers[i].status
    ensures ServerView.StopEnabled(servers[i].status) <==>
              OnAction(servers, servers[i].id, ServerView.Stop)[i].status != servers[i].status
  {
  }

  /** The application state the reducers act on. */
  datatype AppState = AppState(
    user: Option<string>,
    view: View,
    selectedId: Option<string>,
    servers: seq<BotServer>,
    users: seq<User>)

  /** `handleDeleteServer`: the servers with that id go, the rest stay in
      order, the selection is cleared and the dashboard is shown. */
  function HandleDeleteServer(st: AppState, id: string): (r: AppState)
    ensures r.selectedId == None && r.view == DashboardView
    ensures r.user == st.user && r.users == st.users
    ensures |r.servers| <= |st.servers|
    ensures forall i :: 0 <= i < |r.servers| ==> r.servers[i] in st.servers && r.servers[i].id != id
    ensures forall i :: 0 <= i < |st.servers| && st.servers[i].id != id ==> st.servers[i] in r.servers
  {
    st.(servers := Filter(st.servers, (s: BotServer) => s.id != id), selectedId := None, view := DashboardView)
  }

  /** The server list that survives a delete keeps the registry's order. */
  lemma DeleteServerKeepsOrder(st: AppState, a: seq<BotServer>, b: seq<BotServer>, id: string)
    requires st.servers == a + b
    ensures HandleDeleteServer(st, id).servers
            == HandleDeleteServer(st.(servers := a), id).servers + HandleDeleteServer(st.(servers := b), id).servers
  {
    FilterConcat(a, b, (s: BotServer) => s.id != id);
  }

  /** How the application answers a request from the server page. The
      session and the user list never change; a lifecycle, files or settings
      request rewrites at most the servers carrying the request's id and
      leaves view and selection alone; a delete removes that id's servers and
      returns to the dashboard. */
  function Dispatch(st: AppState, c: ServerView.Command): (r: AppState)
    ensures r.user == st.user && r.users == st.users
    ensures !c.DeleteCommand? ==>
              && r.view == st.view && r.selectedId == st.selectedId
              && |r.servers| == |st.servers|
              && forall i :: 0 <= i < |st.servers| && st.servers[i].id != c.id ==> r.servers[i] == st.servers[i]
    ensures c.ActionCommand? ==>
              forall i :: 0 <= i < |st.servers| && st.servers[i].id == c.id ==>
                r.servers[i].status == ActionStatus(c.action)
    ensures c.UpdateFilesCommand? ==>
              forall i :: 0 <= i < |st.servers| && st.servers[i].id == c.id ==> r.servers[i].files == c.files
    ensures c.UpdateSettingsCommand? ==>
              forall i :: 0 <= i < |st.servers| && st.servers[i].id == c.id ==>
                r.servers[i].startupCommand == c.startupCommand && r.servers[i].mainFile == c.mainFile
    ensures c.DeleteCommand? ==>
              && r.view == DashboardView && r.selectedId == None
              && |r.servers| <= |st.servers|
              && (forall i :: 0 <= i < |r.servers| ==> r.servers[i].id != c.id)
              && (forall i :: 0 <= i < |st.servers| && st.servers[i].id != c.id ==> st.servers[i] in r.servers)
  {
    match c
    case ActionCommand(id, action) => st.(servers := OnAction(st.servers, id, action))
    case UpdateFilesCommand(id, files) => st.(servers := OnUpdateFiles(st.servers, id, files))
    case UpdateSettingsCommand(id, cmd, file) => st.(servers := OnUpdateSettings(st.servers, id, cmd, file))
    case DeleteCommand(id) => HandleDeleteServer(st, id)
  }

  /** Whatever the user does on a server's page, only servers with that page's
      id can change; ids, owners, ports and addresses are never rewritten. */
  lemma PageTouchesOnlyItsServer(st: AppState, server: BotServer, intent: ServerView.Intent)
    requires !intent.DeleteConfirmed?
    requires ServerView.Route(server, intent).Some?
    ensures var r := Dispatch(st, ServerView.Route(server, intent).value);
            && |r.servers| == |st.servers|
            && r.user == st.user && r.selectedId == st.selectedId && r.view == st.view
            && (forall i :: 0 <= i < |st.servers| && st.servers[i].id != server.id ==> r.servers[i] == st.servers[i])
            && (forall i :: 0 <= i < |st.servers| ==>
                  && r.servers[i].id == st.servers[i].id && r.servers[i].owner == st.servers[i].owner
                  && r.servers[i].port == st.servers[i].port && r.servers[i].liveUrl == st.servers[i].liveUrl)
  {
    var c := ServerView.Route(server, intent).value;
    var r := Dispatch(st, c);
    forall i | 0 <= i < |st.servers|
      ensures r.servers[i].id == st.servers[i].id && r.servers[i].owner == st.servers[i].owner
      ensures r.servers[i].port == st.servers[i].port && r.servers[i].liveUrl == st.servers[i].liveUrl
    {
      if st.servers[i].id == server.id {
        match c
        case ActionCommand(_, _) =>
          assert r.servers[i].(status := st.servers[i].status) == st.servers[i];
        case UpdateFilesCommand(_, _) =>
          assert r.servers[i].(files := st.servers[i].files) == st.servers[i];
        case UpdateSettingsCommand(_, _, _) =>
          assert r.servers[i].(startupCommand := st.servers[i].startupCommand,
                               mainFile := st.servers[i].mainFile) == st.servers[i];
      }
    }
  }

  /** `handleLogin`: the user name returned by the login form becomes the
      session user; nothing else changes. */
  function HandleLogin(st: AppState, username: string): (r: AppState)
    ensures r.user == Some(username)
    ensures r.(user := st.user) == st
  {
    st.(user := Some(username))
  }

  /** `handleLogout`: the session ends, the selection is cleared and the
      dashboard is shown; the registry and the user list are kept. */
  function HandleLogout(st: AppState): (r: AppState)
    ensures r.user == None && r.selectedId == None && r.view == DashboardView
    ensures r.servers == st.servers && r.users == st.users
  {
    st.(user := None, selectedId := None, view := DashboardView)
  }

  /** Whoever logs in after a logout starts on the dashboard with no server on
      show, whatever the previous session had open. */
  lemma LoginAfterLogoutStartsFresh(st: AppState, username: string)
    ensures var r := HandleLogin(HandleLogout(st), username);
            && r.user == Some(username) && r.view == DashboardView
            && SelectedServer(r.servers, r.selectedId) == None
            && r.servers == st.servers
  {
  }

  /** `navigateToServer`: a dashboard card selects its server and opens the console. */
  function NavigateToServer(st: AppState, server: BotServer): (r: AppState)
    ensures r.selectedId == Some(server.id) && r.view == ConsoleView
    ensures r.(selectedId := st.selectedId, view := st.view) == st
  {
    st.(selectedId := Some(server.id), view := ConsoleView)
  }

  /** Choosing a server from the registry puts a server with its id on show,
      and exactly that server when no earlier one shares its id. */
  lemma NavigateShowsServer(st: AppState, i: nat)
    requires i < |st.servers|
    ensures var r := NavigateToServer(st, st.servers[i]);
            var shown := SelectedServer(r.servers, r.selectedId);
            && shown.Some? && shown.value.id == st.servers[i].id
            && ((forall j :: 0 <= j < i ==> st.servers[j].id != st.servers[i].id) ==> shown == Some(st.servers[i]))
  {
    var r := NavigateToServer(st, st.servers[i]);
    var shown := SelectedServer(r.servers, r.selectedId);
    assert shown.Some?;
    if forall j :: 0 <= j < i ==> st.servers[j].id != st.servers[i].id {
      var k :| 0 <= k < |st.servers| && st.servers[k] == shown.value
               && forall j :: 0 <= j < k ==> st.servers[j].id != st.servers[i].id;
      assert k == i;
    }
  }

  /** Logging in through the form with the built-in password always opens an
      administrator session that sees the whole registry. */
  lemma AdminLoginSeesEverything(st: AppState, saved: Option<seq<User>>, username: string)
    requires st.users == NormalizeUsers(saved)
    requires Trim(username) == ADMIN_USERNAME
    ensures var sub := Login.HandleSubmit(st.users, username, ADMIN_PASSWORD);
            && sub.loggedInAs.Some?
            && VisibleServers(HandleLogin(st, sub.loggedInAs.value).servers, sub.loggedInAs.value) == st.servers
  {
    AdminCanAlwaysLogIn(saved, username);
  }
}

=== FILE: file_manager.dfy ===
/** The file manager of one server. A workspace is a flat list of entries;
    directories exist only through the slash-separated paths, so listing,
    subtree deletion and renaming are all prefix arithmetic on strings. */
module FileManager {
  import opened Wrappers
  import opened JsStrings
  import opened Seqs
  import opened Types

  /** `k` is the position of the last `/` in `path`. */
  predicate IsLastSlash(path: string, k: int) {
    0 <= k < |path| && path[k] == '/' && forall j :: k < j < |path| ==> path[j] != '/'
  }

  /** `lastIndexOf('/')` finds the last slash exactly when there is one. */
  lemma LastSlashFound(path: string)
    ensures '/' in path ==> IsLastSlash(path, LastIndexOf(path, '/'))
    ensures '/' !in path ==> LastIndexOf(path, '/') == -1
    ensures forall k :: IsLastSlash(path, k) ==> k == LastIndexOf(path, '/')
  {
    var m := LastIndexOf(path, '/');
    if '/' in path {
      var k :| 0 <= k < |path| && path[k] == '/';
      assert m >= 0;
    }
  }

  /** The directory an entry is listed under: the text before its last `/`,
      or `/` when that slash is the first character. A path with no slash at
      all has the empty parent, which no directory is ever equal to. */
  function ParentPath(path: string): (r: string)
    ensures '/' !in path ==> r == ""
    ensures forall k :: IsLastSlash(path, k) ==> r == if k == 0 then "/" else path[..k]
  {
    var lastSlash := LastIndexOf(path, '/');
    LastSlashFound(path);
    if lastSlash == 0 then "/" else SubstringTo(path, lastSlash)
  }

  /** The path a new child called `name` gets inside directory `dir`: the
      name after one separating `/`, preceded by `dir` unless `dir` is the root. */
  function JoinChild(dir: string, name: string): (r: string)
    ensures |r| == (if dir == "/" then 0 else |dir|) + 1 + |name|
    ensures r[|r| - |name| - 1] == '/' && r[|r| - |name|..] == name
    ensures dir != "/" ==> r[..|dir|] == dir
  {
    if dir == "/" then "/" + name else dir + "/" + name
  }

  /** A child joined onto a directory is listed in that directory, provided
      the name holds no slash of its own. */
  lemma ParentOfJoinChild(dir: string, name: string)
    requires dir != "" && '/' !in name
    ensures ParentPath(JoinChild(dir, name)) == dir
  {
    var p := JoinChild(dir, name);
    var k := |p| - |name| - 1;
    assert p[k + 1..] == name;
    assert IsLastSlash(p, k);
    if dir != "/" {
      assert p[..k] == dir;
    }
  }

  /** The entries shown while browsing `cwd`: those whose parent is `cwd`. */
  function Listing(files: seq<FileEntry>, cwd: string): (r: seq<FileEntry>)
    ensures |r| <= |files|
    ensures forall i :: 0 <= i < |r| ==> r[i] in files && ParentPath(r[i].path) == cwd
    ensures forall i :: 0 <= i < |files| && ParentPath(files[i].path) == cwd ==> files[i] in r
  {
    Filter(files, (f: FileEntry) => ParentPath(f.path) == cwd)
  }

  /** The listing of a concatenation is the concatenation of the listings. */
  lemma ListingKeepsOrder(a: seq<FileEntry>, b: seq<FileEntry>, cwd: string)
    ensures Listing(a + b, cwd) == Listing(a, cwd) + Listing(b, cwd)
  {
    FilterConcat(a, b, (f: FileEntry) => ParentPath(f.path) == cwd);
  }

  /** A measure that `NavigateUp` strictly decreases until it reaches the root. */
  function UpMeasure(p: string): nat {
    if p == "/" then 0 else |p| + 1
  }

  /** The "up" button: stays at the root, otherwise moves to the text before
      the last `/`, or to the root when that text is empty. */
  function NavigateUp(cwd: string): (r: string)
    ensures cwd == "/" ==> r == "/"
    ensures r == "/" || (0 < |r| < |cwd| && r == cwd[..|r|] && IsLastSlash(cwd, |r|))
    ensures cwd != "/" && '/' !in cwd ==> r == "/"
    ensures cwd != "/" ==> forall k :: IsLastSlash(cwd, k) ==> r == if k == 0 then "/" else cwd[..k]
    ensures cwd != "/" ==> UpMeasure(r) < UpMeasure(cwd)
  {
    if cwd == "/" then cwd
    else
      var lastSlash := LastIndexOf(cwd, '/');
      var parent := SubstringTo(cwd, lastSlash);
      LastSlashFound(cwd);
      if parent == "" then "/" else parent
  }

  /** Below the root, "up" lands in the directory whose listing shows `cwd`. */
  lemma NavigateUpIsParent(cwd: string)
    requires cwd != "/" && '/' in cwd
    ensures NavigateUp(cwd) == ParentPath(cwd)
  {
    LastSlashFound(cwd);
    assert IsLastSlash(cwd, LastIndexOf(cwd, '/'));
  }

  /** `n` presses of the "up" button. */
  function UpN(cwd: string, n: nat): string
    decreases n
  {
    if n == 0 then cwd else UpN(NavigateUp(cwd), n - 1)
  }

  /** How many presses of "up" bring `cwd` to the root; there are never more
      than `UpMeasure(cwd)`. */
  function StepsToRoot(cwd: string): (n: nat)
    ensures n <= UpMeasure(cwd)
    ensures UpN(cwd, n) == "/"
    decreases UpMeasure(cwd)
  {
    if cwd == "/" then 0 else 1 + StepsToRoot(NavigateUp(cwd))
  }

  datatype CreateError = EmptyName | AlreadyExists

  /** The entry the create dialog adds: a file starts empty with size 0, a
      directory carries neither content nor size. */
  function NewEntry(name: string, path: string, kind: FileKind, now: string): FileEntry {
    FileEntry(name, path, kind,
              if kind == File then Some(0) else None,
              now,
              if kind == File then Some("") else None)
  }

  /** "New file" / "New folder": the trimmed name is joined onto `cwd`; an
      empty name or an occupied path is refused and the list left as it was,
      otherwise exactly one entry is appended. */
  function Create(files: seq<FileEntry>, cwd: string, kind: FileKind, input: string, now: string)
    : (r: Result<seq<FileEntry>, CreateError>)
    ensures r == Failure(EmptyName) <==> Trim(input) == ""
    ensures r == Failure(AlreadyExists) <==>
              Trim(input) != "" && PathTaken(files, JoinChild(cwd, Trim(input)))
    ensures r.Success? ==>
              && |r.value| == |files| + 1
              && r.value[..|files|] == files
              && r.value[|files|].name == Trim(input)
              && r.value[|files|].path == JoinChild(cwd, Trim(input))
              && r.value[|files|].kind == kind
              && r.value[|files|].lastModified == now
    ensures r.Success? && kind == File ==>
              r.value[|files|].content == Some("") && r.value[|files|].size == Some(0)
    ensures r.Success? && kind == Directory ==>
              r.value[|files|].content.None? && r.value[|files|].size.None?
  {
    var name := Trim(input);
    if name == "" then Failure(EmptyName)
    else
      var path := JoinChild(cwd, name);
      if PathTaken(files, path) then Failure(AlreadyExists)
      else Success(files + [NewEntry(name, path, kind, now)])
  }

  /** A successful create keeps paths unique. */
  lemma CreateKeepsPathsUnique(files: seq<FileEntry>, cwd: string, kind: FileKind, input: string, now: string)
    requires UniquePaths(files)
    requires Create(files, cwd, kind, input, now).Success?
    ensures UniquePaths(Create(files, cwd, kind, input, now).value)
  {
    var r := Create(files, cwd, kind, input, now).value;
    forall i, j | 0 <= i < j < |r| ensures r[i].path != r[j].path {
      if j == |files| {
        assert r[i] == files[i];
      }
    }
  }

  /** A created entry whose name has no slash shows up in the listing of the
      directory it was created from. */
  lemma CreatedEntryIsListed(files: seq<FileEntry>, cwd: string, kind: FileKind, input: string, now: string)
    requires cwd != "" && '/' !in Trim(input)
    requires Create(files, cwd, kind, input, now).Success?
    ensures var r := Create(files, cwd, kind, input, now).value;
            r[|files|] in Listing(r, cwd)
  {
    ParentOfJoinChild(cwd, Trim(input));
  }

  /** `path` is `target` itself or lies underneath it. */
  predicate InSubtree(path: string, target: string) {
    path == target || StartsWith(path, target + "/")
  }

  /** Delete: drops the target and every entry under `target + "/"`; a null
      or empty target changes nothing. */
  function Delete(files: seq<FileEntry>, target: Option<string>): (r: seq<FileEntry>)
    ensures |r| <= |files|
    ensures !Truthy(target) ==> r == files
    ensures Truthy(target) ==>
              forall i :: 0 <= i < |r| ==> r[i] in files && !InSubtree(r[i].path, target.value)
    ensures Truthy(target) ==>
              forall i :: 0 <= i < |files| && !InSubtree(files[i].path, target.value) ==> files[i] in r
  {
    if !Truthy(target) then files
    else Filter(files, (f: FileEntry) => !InSubtree(f.path, target.value))
  }

  /** Survivors of a delete keep their relative order. */
  lemma {:induction false} DeleteKeepsOrder(a: seq<FileEntry>, b: seq<FileEntry>, target: Option<string>)
    ensures Delete(a + b, target) == Delete(a, target) + Delete(b, target)
  {
    if Truthy(target) {
      FilterConcat(a, b, (f: FileEntry) => !InSubtree(f.path, target.value));
    }
  }

  /** Counted with multiplicity, a delete drops every copy of an entry inside
      the target's subtree and keeps every copy of every other entry. */
  lemma DeleteMultiplicity(files: seq<FileEntry>, target: Option<string>)
    ensures forall x :: multiset(Delete(files, target))[x] ==
              if Truthy(target) && InSubtree(x.path, target.value) then 0 else multiset(files)[x]
  {
    if Truthy(target) {
      forall x
        ensures multiset(Delete(files, target))[x] ==
                  if InSubtree(x.path, target.value) then 0 else multiset(files)[x]
      {
        FilterMultiplicity(files, (f: FileEntry) => !InSubtree(f.path, target.value), x);
      }
    }
  }

  /** Deleting never creates a duplicate path. */
  lemma DeleteKeepsPathsUnique(files: seq<FileEntry>, target: Option<string>)
    requires UniquePaths(files)
    ensures UniquePaths(Delete(files, target))
  {
    if Truthy(target) {
      FilterDistinctBy(files, (f: FileEntry) => !InSubtree(f.path, target.value), PathOf);
    }
  }

  /** A sibling whose name merely extends the target's (`/srcx` beside `/src`)
      is not inside the target's subtree, so a delete spares it. */
  lemma SiblingIsNotInSubtree(target: string, rest: string)
    requires rest != "" && rest[0] != '/'
    ensures !InSubtree(target + rest, target)
  {
    assert (target + rest)[|target|] == rest[0];
    assert (target + "/")[|target|] == '/';
  }

  /** Which of the example paths lie in the subtree of `/src`. */
  lemma SrcSubtreeMembers()
    ensures !InSubtree("/index.js", "/src")
    ensures InSubtree("/src", "/src") && InSubtree("/src/a.js", "/src")
    ensures !InSubtree("/srcx", "/src")
  {
    assert "/index.js"[1] != "/src/"[1];
    assert "/src/a.js"[..5] == "/src" + "/";
    SiblingIsNotInSubtree("/src", "x");
    assert "/src" + "x" == "/srcx";
  }

  /** Deleting `/src` from `/index.js, /src, /src/a.js, /srcx` removes
      `/src/a.js` but keeps `/srcx` and `/index.js`, in order. */
  lemma DeleteSrcSparesSrcx(index: FileEntry, src: FileEntry, a: FileEntry, srcx: FileEntry)
    requires index.path == "/index.js" && src.path == "/src"
    requires a.path == "/src/a.js" && srcx.path == "/srcx"
    ensures Delete([index, src, a, srcx], Some("/src")) == [index, srcx]
  {
    var p := (f: FileEntry) => !InSubtree(f.path, "/src");
    SrcSubtreeMembers();
    var s := [index, src, a, srcx];
    assert s[1..] == [src, a, srcx];
    assert s[1..][1..] == [a, srcx];
    assert s[1..][1..][1..] == [srcx];
    assert Filter([srcx], p) == [srcx];
    assert Filter([a, srcx], p) == [srcx];
    assert Filter([src, a, srcx], p) == [srcx];
  }

  /** The path a renamed target moves to: the text of `target` before its
      last slash, then `/` and the new name. */
  function RenamedBase(target: string, name: string): (r: string)
    ensures |r| > |name|
    ensures r[|r| - |name| - 1] == '/' && r[|r| - |name|..] == name
    ensures forall k :: IsLastSlash(target, k) ==> |r| == k + 1 + |name| && r[..k] == target[..k]
    ensures '/' !in target ==> r == "/" + name
  {
    LastSlashFound(target);
    var parent := SubstringTo(target, LastIndexOf(target, '/'));
    if parent == "" then "/" + name else parent + "/" + name
  }

  /** The renamed path is the old parent joined with the new name (a target
      starting `//` is the one exception: its parent is `/` but the text before
      its last slash is `/` too, so the rename yields `//name`). */
  lemma RenamedBaseIsSibling(target: string, name: string)
    requires !StartsWith(target, "//")
    ensures RenamedBase(target, name) == JoinChild(ParentPath(target), name)
  {
    LastSlashFound(target);
    var k := LastIndexOf(target, '/');
    if k == -1 {
      assert "" + "/" + name == "/" + name;
    } else if k > 0 {
      if k == 1 {
        assert target[..2] == [target[0], '/'];
      }
    }
  }

  /** A renamed target whose new name holds no slash stays in the directory
      listing it was renamed from. */
  lemma RenamedBaseStaysListed(t: string, name: string)
    requires '/' in t && '/' !in name
    ensures ParentPath(RenamedBase(t, name)) == ParentPath(t)
  {
    LastSlashFound(t);
    var k := LastIndexOf(t, '/');
    var b := RenamedBase(t, name);
    if k == 0 {
      ParentOfJoinChild("/", name);
    } else {
      LastIndexOfJoin(t[..k], name);
      assert b == t[..k] + "/" + name;
    }
  }

  /** The rename dialog does not refuse a slash in the new name, and such a
      name moves the entry out of its directory: `/a` renamed to `b/c` leaves
      the root listing for `/b`. */
  lemma SlashInNameLeavesDirectory()
    ensures ParentPath("/a") == "/"
    ensures RenamedBase("/a", "b/c") == "/b/c"
    ensures ParentPath(RenamedBase("/a", "b/c")) == "/b"
  {
    assert IsLastSlash("/a", 0);
    assert IsLastSlash("/b/c", 2);
    assert "/b/c"[..2] == "/b";
  }

  /** One entry under a rename of `target` to `name`: entries outside the
      target's subtree are untouched; the target and its descendants move
      under the new base, keeping the part of the path after the old target,
      and only the target itself takes the new display name. */
  function RenameEntry(f: FileEntry, target: string, name: string): (r: FileEntry)
    ensures !InSubtree(f.path, target) ==> r == f
    ensures InSubtree(f.path, target) ==>
              && InSubtree(r.path, RenamedBase(target, name))
              && |r.path| - |RenamedBase(target, name)| == |f.path| - |target|
              && r.path[|RenamedBase(target, name)|..] == f.path[|target|..]
    ensures r.name == (if f.path == target then name else f.name)
    ensures r.(name := f.name, path := f.path) == f
  {
    if f.path == target then f.(name := name, path := RenamedBase(target, name))
    else if StartsWith(f.path, target + "/") then
      MoveUnder(f.path, target, RenamedBase(target, name));
      f.(path := RenamedBase(target, name) + f.path[|target|..])
    else f
  }

  /** Rename: the target moves to the text before its last `/`, then `/` and the trimmed name,
      each descendant keeps its suffix under the new base, everything else is
      untouched, and the list keeps its length and order. There is no check
      that the new path is free. */
  function Rename(files: seq<FileEntry>, target: Option<string>, input: string): (r: seq<FileEntry>)
    ensures |r| == |files|
    ensures !Truthy(target) || Trim(input) == "" ==> r == files
    ensures Truthy(target) && Trim(input) != "" ==>
              forall i :: 0 <= i < |files| && files[i].path == target.value ==>
                r[i] == files[i].(name := Trim(input), path := RenamedBase(target.value, Trim(input)))
    ensures Truthy(target) && Trim(input) != "" ==>
              forall i :: 0 <= i < |files| && StartsWith(files[i].path, target.value + "/") ==>
                && StartsWith(r[i].path, RenamedBase(target.value, Trim(input)) + "/")
                && r[i].path[|RenamedBase(target.value, Trim(input))|..] == files[i].path[|target.value|..]
                && r[i].(path := files[i].path) == files[i]
    ensures Truthy(target) ==>
              forall i :: 0 <= i < |files| && !InSubtree(files[i].path, target.value) ==> r[i] == files[i]
  {
    if !Truthy(target) || Trim(input) == "" then files
    else
      var t, name := target.value, Trim(input);
      seq(|files|, i requires 0 <= i < |files| => RenameEntry(files[i], t, name))
  }

  /** Entry `i` of a rename is that entry renamed on its own. */
  lemma RenameAt(files: seq<FileEntry>, t: string, input: string, i: nat)
    requires t != "" && Trim(input) != "" && i < |files|
    ensures Rename(files, Some(t), input)[i] == RenameEntry(files[i], t, Trim(input))
  {
  }

  /** Renaming onto an occupied path is not refused: `/a` renamed to `b`
      beside an existing `/b` leaves two entries at `/b`. */
  lemma RenameOntoExistingDuplicates()
    ensures var a := FileEntry("a", "/a", File, None, "", Some(""));
            var b := FileEntry("b", "/b", File, None, "", Some(""));
            var r := Rename([a, b], Some("/a"), "b");
            |r| == 2 && r[0].path == "/b" && r[1].path == "/b" && !UniquePaths(r)
  {
    var a := FileEntry("a", "/a", File, None, "", Some(""));
    var b := FileEntry("b", "/b", File, None, "", Some(""));
    assert Trim("b") == "b" by {
      assert "b"[0] == 'b';
      TrimOfTrimmed("b");
    }
    assert RenamedBase("/a", "b") == "/b" by {
      assert IsLastSlash("/a", 0);
      LastSlashFound("/a");
    }
    assert !StartsWith("/b", "/a" + "/");
    RenameAt([a, b], "/a", "b", 0);
    RenameAt([a, b], "/a", "b", 1);
  }

  /** The string facts behind the `/src` to `source` example. */
  lemma SourceNameFacts()
    ensures Trim("source") == "source"
    ensures RenamedBase("/src", "source") == "/source"
  {
    assert "source"[0] == 's' && "source"[5] == 'e';
    TrimOfTrimmed("source");
    assert IsLastSlash("/src", 0);
    LastSlashFound("/src");
  }

  /** Renaming `/src` to `source` moves `/src/a.js` to `/source/a.js`. */
  lemma RenameSrcToSource(src: FileEntry, a: FileEntry)
    requires src.path == "/src" && a.path == "/src/a.js"
    ensures var r := Rename([src, a], Some("/src"), "source");
            && r == [src.(name := "source", path := "/source"), a.(path := "/source/a.js")]
            && !PathTaken(r, "/src/a.js")
  {
    SourceNameFacts();
    RenameAt([src, a], "/src", "source", 0);
    RenameAt([src, a], "/src", "source", 1);
    SourceMovesChild(a);
    assert "/source"[2] != "/src/a.js"[2];
    assert "/source/a.js"[2] != "/src/a.js"[2];
  }

  /** The child `/src/a.js` of the `/src` example, renamed on its own. */
  lemma SourceMovesChild(a: FileEntry)
    requires a.path == "/src/a.js"
    ensures RenameEntry(a, "/src", "source") == a.(path := "/source/a.js")
  {
    SourceNameFacts();
    assert StartsWith(a.path, "/src" + "/");
    assert "/src/a.js"[4..] == "/a.js";
    assert "/source" + "/a.js" == "/source/a.js";
  }

  /** The last path segment of `t`. The rename dialog pre-fills the entry's
      `name`, which equals this segment only while the name holds no `/`. */
  function LastSegment(t: string): string {
    t[LastIndexOf(t, '/') + 1..]
  }

  lemma {:induction false} LastIndexOfJoin(a: string, name: string)
    requires '/' !in name
    ensures LastIndexOf(a + "/" + name, '/') == |a|
  {
    var p := a + "/" + name;
    assert p[|a| + 1..] == name;
    assert IsLastSlash(p, |a|);
    LastSlashFound(p);
  }

  /** Moving the base back restores the original target path. */
  lemma RenamedBaseBack(t: string, name: string)
    requires '/' in t && '/' !in name
    ensures RenamedBase(RenamedBase(t, name), LastSegment(t)) == t
  {
    var k := LastIndexOf(t, '/');
    var parent := SubstringTo(t, k);
    assert k >= 0 by {
      var j :| 0 <= j < |t| && t[j] == '/';
    }
    assert t == parent + "/" + LastSegment(t);
    var b := RenamedBase(t, name);
    if parent == "" {
      LastIndexOfJoin("", name);
      assert "" + "/" + name == b;
    } else {
      LastIndexOfJoin(parent, name);
      assert SubstringTo(b, |parent|) == parent;
    }
  }

  /** Moving a path that lies under `t` so that it lies under `b` instead:
      the suffix after the old prefix is carried over unchanged. */
  lemma MoveUnder(path: string, t: string, b: string)
    requires StartsWith(path, t + "/")
    ensures var moved := b + path[|t|..];
            && StartsWith(moved, b + "/")
            && moved != b
            && moved[|b|..] == path[|t|..]
            && t + path[|t|..] == path
  {
    var rest := path[|t|..];
    assert rest[0] == '/' by {
      assert path[|t|] == (t + "/")[|t|];
    }
    assert (b + rest)[|b|] == rest[0];
    assert (b + rest)[..|b| + 1] == b + "/";
  }

  /** One entry renamed and renamed back is restored, apart from the
      target's display name, when it did not already lie under the new base. */
  lemma {:induction false} RenameEntryRoundTrip(f: FileEntry, t: string, name: string)
    requires '/' in t && '/' !in name
    requires !InSubtree(f.path, RenamedBase(t, name))
    ensures var back := RenameEntry(RenameEntry(f, t, name), RenamedBase(t, name), LastSegment(t));
            back == if f.path == t then f.(name := LastSegment(t)) else f
  {
    var b := RenamedBase(t, name);
    var seg := LastSegment(t);
    RenamedBaseBack(t, name);
    if f.path != t && StartsWith(f.path, t + "/") {
      MoveUnder(f.path, t, b);
      var once := RenameEntry(f, t, name);
      assert once.path == b + f.path[|t|..];
      MoveUnder(once.path, b, t);
    }
  }

  /** Renaming an entry and then renaming it back restores every path, as
      long as the new name holds no slash and nothing already lived at the new
      base. Only the target's display name ends up as its old path segment. */
  lemma {:induction false} RenameRoundTrip(files: seq<FileEntry>, t: string, input: string)
    requires '/' in t
    requires Trim(input) != "" && '/' !in Trim(input)
    requires LastSegment(t) != "" && Trim(LastSegment(t)) == LastSegment(t)
    requires forall i :: 0 <= i < |files| ==> !InSubtree(files[i].path, RenamedBase(t, Trim(input)))
    ensures var back := Rename(Rename(files, Some(t), input), Some(RenamedBase(t, Trim(input))), LastSegment(t));
            && |back| == |files|
            && (forall i :: 0 <= i < |files| && files[i].path != t ==> back[i] == files[i])
            && (forall i :: 0 <= i < |files| && files[i].path == t ==> back[i] == files[i].(name := LastSegment(t)))
  {
    var name := Trim(input);
    var b := RenamedBase(t, name);
    var seg := LastSegment(t);
    var once := Rename(files, Some(t), input);
    var back := Rename(once, Some(b), seg);
    assert t != "";
    assert b != "" by {
      if SubstringTo(t, LastIndexOf(t, '/')) == "" { assert b == "/" + name; }
    }
    forall i | 0 <= i < |files|
      ensures back[i] == if files[i].path == t then files[i].(name := seg) else files[i]
    {
      RenameAt(files, t, input, i);
      RenameAt(once, b, seg, i);
      RenameEntryRoundTrip(files[i], t, name);
    }
  }

  /** Save in the editor: the content and timestamp of the entry at the
      selected path are replaced; nothing else changes. */
  function Save(files: seq<FileEntry>, selected: Option<string>, text: string, now: string): (r: seq<FileEntry>)
    ensures |r| == |files|
    ensures !Truthy(selected) ==> r == files
    ensures forall i :: 0 <= i < |files| ==>
              r[i].(content := files[i].content, lastModified := files[i].lastModified) == files[i]
    ensures Truthy(selected) ==>
              forall i :: 0 <= i < |files| && files[i].path == selected.value ==>
                r[i].content == Some(text) && r[i].lastModified == now
    ensures forall i :: 0 <= i < |files| && (!Truthy(selected) || files[i].path != selected.value) ==>
              r[i] == files[i]
  {
    if !Truthy(selected) then files
    else
      seq(|files|, i requires 0 <= i < |files| =>
        if files[i].path == selected.value then files[i].(content := Some(text), lastModified := now)
        else files[i])
  }

  /** Saving the same text twice is saving it once. */
  lemma SaveIdempotent(files: seq<FileEntry>, selected: Option<string>, text: string, now: string)
    ensures Save(Save(files, selected, text, now), selected, text, now) == Save(files, selected, text, now)
  {
  }

  /** The entry an upload produces: a file whose size and content come from
      the browser, placed in the directory being browsed. */
  function UploadedEntry(cwd: string, fileName: string, fileSize: nat, text: string, now: string): (r: FileEntry)
    ensures r.kind == File && r.name == fileName && r.lastModified == now
    ensures r.content == Some(text) && r.size == Some(fileSize)
    ensures r.path == JoinChild(cwd, fileName)
    ensures cwd != "" && '/' !in fileName ==> ParentPath(r.path) == cwd
  {
    var e := FileEntry(fileName, JoinChild(cwd, fileName), File, Some(fileSize), now, Some(text));
    if cwd != "" && '/' !in fileName then ParentOfJoinChild(cwd, fileName); e else e
  }

  /** The upload merge: an entry already at the same path is replaced in
      place (the first one, if several), otherwise the new entry is appended. */
  function MergeUpload(files: seq<FileEntry>, entry: FileEntry): (r: seq<FileEntry>)
    ensures entry in r
    ensures PathTaken(files, entry.path) ==> |r| == |files|
    ensures !PathTaken(files, entry.path) ==>
              |r| == |files| + 1 && r[..|files|] == files && r[|files|] == entry
    ensures forall i :: 0 <= i < |files| && files[i].path != entry.path ==> r[i] == files[i]
    ensures forall i :: 0 <= i < |files| && r[i] != files[i] ==>
              r[i] == entry && forall j :: 0 <= j < i ==> files[j].path != entry.path
    ensures forall i :: 0 <= i < |files| && files[i].path == entry.path ==>
              (forall j :: 0 <= j < i ==> files[j].path != entry.path) ==> r[i] == entry
  {
    var k := FindIndex(files, (f: FileEntry) => f.path == entry.path);
    if k > -1 then
      assert files[k := entry][k] == entry;
      files[k := entry]
    else
      assert (files + [entry])[|files|] == entry;
      files + [entry]
  }

  /** If paths were unique before an upload they are unique after it. */
  lemma MergeUploadKeepsPathsUnique(files: seq<FileEntry>, entry: FileEntry)
    requires UniquePaths(files)
    ensures UniquePaths(MergeUpload(files, entry))
  {
    var r := MergeUpload(files, entry);
    forall i, j | 0 <= i < j < |r| ensures r[i].path != r[j].path {
      if j == |files| {
        assert r[i] == files[i];
      } else if r[i] != files[i] {
        assert r[j] == files[j];
      } else if r[j] != files[j] {
        assert files[j].path == entry.path;
      }
    }
  }

  /** An uploaded file whose name holds no slash is listed in the directory it
      was uploaded from, whether it replaced an entry or was appended. */
  lemma UploadIsListed(files: seq<FileEntry>, cwd: string, fileName: string, fileSize: nat, text: string, now: string)
    requires cwd != "" && '/' !in fileName
    ensures var e := UploadedEntry(cwd, fileName, fileSize, text, now);
            e in Listing(MergeUpload(files, e), cwd)
  {
    var e := UploadedEntry(cwd, fileName, fileSize, text, now);
    var r := MergeUpload(files, e);
    var i :| 0 <= i < |r| && r[i] == e;
    assert ParentPath(r[i].path) == cwd;
  }
}

=== FILE: js_strings.dfy ===
/** The handful of ECMAScript string operations the panel relies on, written
    out with their JavaScript edge cases: `lastIndexOf` answers -1 when the
    character is absent, `substring(0, k)` clamps a negative `k` to 0, `trim`
    strips the ECMAScript white-space and line-terminator code points, and a
    number is rendered in plain decimal inside a template literal. */
module JsStrings {
  import opened Wrappers

  /** JavaScript truthiness of a `string | null`: both null and "" are falsy. */
  predicate Truthy(s: Option<string>) {
    s.Some? && s.value != ""
  }

  /** ECMAScript WhiteSpace and LineTerminator code points (the set `trim` strips). */
  predicate IsSpace(c: char) {
    || c == ' ' || c == '\t' || c == '\n' || c == '\r'
    || c == '\U{000B}' || c == '\U{000C}' || c == '\U{00A0}' || c == '\U{1680}'
    || ('\U{2000}' <= c <= '\U{200A}')
    || c == '\U{2028}' || c == '\U{2029}' || c == '\U{202F}' || c == '\U{205F}'
    || c == '\U{3000}' || c == '\U{FEFF}'
  }

  /** `s.startsWith(p)`. */
  predicate StartsWith(s: string, p: string) {
    p <= s
  }

  /** `s.lastIndexOf(c)` for a one-character needle. */
  function LastIndexOf(s: string, c: char): (r: int)
    ensures -1 <= r < |s|
    ensures r >= 0 ==> s[r] == c
    ensures forall j :: r < j < |s| ==> s[j] != c
  {
    if |s| == 0 then -1
    else if s[|s| - 1] == c then |s| - 1
    else LastIndexOf(s[..|s| - 1], c)
  }

  /** `s.substring(0, k)`: a negative end is clamped to 0, an end beyond the length to `|s|`. */
  function SubstringTo(s: string, k: int): (r: string)
    ensures |r| <= |s| && r <= s
    ensures 0 <= k <= |s| ==> |r| == k
    ensures k <= 0 ==> r == ""
  {
    if k <= 0 then "" else if k >= |s| then s else s[..k]
  }

  /** The first index at or after `i` that is not white space. */
  function SkipSpaces(s: string, i: nat): (k: nat)
    requires i <= |s|
    ensures i <= k <= |s|
    ensures forall j :: i <= j < k ==> IsSpace(s[j])
    ensures k < |s| ==> !IsSpace(s[k])
    decreases |s| - i
  {
    if i < |s| && IsSpace(s[i]) then SkipSpaces(s, i + 1) else i
  }

  /** The least `k` in `[lo, e]` such that `s[k..e]` is all white space. */
  function BackSpaces(s: string, lo: nat, e: nat): (k: nat)
    requires lo <= e <= |s|
    ensures lo <= k <= e
    ensures forall j :: k <= j < e ==> IsSpace(s[j])
    ensures k > lo ==> !IsSpace(s[k - 1])
    decreases e
  {
    if e > lo && IsSpace(s[e - 1]) then BackSpaces(s, lo, e - 1) else e
  }

  /** Positions `(a, b)` such that `s.trim()` is `s[a..b]`. */
  function TrimSpan(s: string): (span: (nat, nat))
    ensures span.0 <= span.1 <= |s|
    ensures forall j :: 0 <= j < span.0 ==> IsSpace(s[j])
    ensures forall j :: span.1 <= j < |s| ==> IsSpace(s[j])
    ensures span.0 < span.1 ==> !IsSpace(s[span.0]) && !IsSpace(s[span.1 - 1])
  {
    var a := SkipSpaces(s, 0);
    (a, BackSpaces(s, a, |s|))
  }

  /** `s.trim()`: only leading and trailing white space is removed, and what is
      left neither starts nor ends with white space. */
  function Trim(s: string): (r: string)
    ensures |r| <= |s|
    ensures r == "" <==> forall j :: 0 <= j < |s| ==> IsSpace(s[j])
    ensures r != "" ==> !IsSpace(r[0]) && !IsSpace(r[|r| - 1])
    ensures r == s[TrimSpan(s).0..TrimSpan(s).1]
  {
    var span := TrimSpan(s);
    s[span.0..span.1]
  }

  /** A string that neither starts nor ends with white space is its own trim. */
  lemma TrimOfTrimmed(s: string)
    requires s == "" || (!IsSpace(s[0]) && !IsSpace(s[|s| - 1]))
    ensures Trim(s) == s
  {
    var span := TrimSpan(s);
    if s != "" {
      assert span.0 == 0;
      assert span.1 == |s|;
    }
  }

  /** Trimming twice is trimming once. */
  lemma TrimIdempotent(s: string)
    ensures Trim(Trim(s)) == Trim(s)
  {
    TrimOfTrimmed(Trim(s));
  }

  predicate IsDigit(c: char) {
    '0' <= c <= '9'
  }

  function DigitChar(d: nat): (c: char)
    requires d < 10
    ensures IsDigit(c)
  {
    "0123456789"[d]
  }

  function DigitValue(c: char): (d: nat)
    requires IsDigit(c)
    ensures d < 10 && DigitChar(d) == c
  {
    (c as int - '0' as int) as nat
  }

  /** The decimal rendering of a non-negative integer, as `${n}` produces it. */
  function NatToString(n: nat): (r: string)
    ensures r != ""
    ensures forall j :: 0 <= j < |r| ==> IsDigit(r[j])
    ensures r[0] == '0' ==> n == 0 && r == "0"
  {
    if n < 10 then [DigitChar(n)] else NatToString(n / 10) + [DigitChar(n % 10)]
  }

  /** Reads a string of decimal digits back as a number. */
  function ParseNat(s: string): nat
    requires forall j :: 0 <= j < |s| ==> IsDigit(s[j])
  {
    if |s| == 0 then 0 else 10 * ParseNat(s[..|s| - 1]) + DigitValue(s[|s| - 1])
  }

  /** Rendering a number and reading it back gives the number. */
  lemma {:induction false} ParseNatToString(n: nat)
    ensures ParseNat(NatToString(n)) == n
  {
    var r := NatToString(n);
    if n < 10 {
    } else {
      var hi := NatToString(n / 10);
      assert r == hi + [DigitChar(n % 10)];
      assert r[..|r| - 1] == hi;
      assert DigitValue(r[|r| - 1]) == n % 10;
      ParseNatToString(n / 10);
      assert n == 10 * (n / 10) + n % 10;
    }
  }
}

=== FILE: login.dfy ===
/** The login form: a submission is checked against the authorised-user list. */
module Login {
  import opened Wrappers
  import opened JsStrings
  import opened Seqs
  import opened Types

  const INVALID_CREDENTIALS: string :=
    "Invalid username or password. Access restricted to authorized personnel."

  /** A stored user matches the form when its name equals the TRIMMED username
      field and its hash equals the password field exactly, untrimmed. */
  predicate Matches(u: User, username: string, password: string) {
    u.username == Trim(username) && u.passwordHash == password
  }

  /** What a submission leaves behind: the error line shown under the form and,
      on success, the name handed to `onLogin`. */
  datatype Submission = Submission(error: string, loggedInAs: Option<string>)

  /** Submitting the form clears any earlier error, then logs in as the first
      matching user or shows the fixed error message. Because the error is
      cleared first, the outcome never depends on what was shown before. */
  function HandleSubmit(users: seq<User>, username: string, password: string)
    : (r: Submission)
    ensures r.loggedInAs.Some? <==>
              exists i :: 0 <= i < |users| && Matches(users[i], username, password)
    ensures r.loggedInAs.Some? ==>
              && r.error == ""
              && r.loggedInAs.value == Trim(username)
              && exists i :: 0 <= i < |users| && Matches(users[i], username, password)
                             && r.loggedInAs.value == users[i].username
                             && forall j :: 0 <= j < i ==> !Matches(users[j], username, password)
    ensures r.loggedInAs.None? ==> r.error == INVALID_CREDENTIALS
  {
    var error := "";
    var k := FindIndex(users, (u: User) => Matches(u, username, password));
    if k >= 0 then Submission(error, Some(users[k].username))
    else Submission(INVALID_CREDENTIALS, None)
  }

  /** Surrounding white space in the username field makes no difference:
      submitting the already trimmed name gives the same outcome. */
  lemma SubmitIgnoresSurroundingSpaces(users: seq<User>, username: string, password: string)
    ensures HandleSubmit(users, Trim(username), password) == HandleSubmit(users, username, password)
  {
    TrimIdempotent(username);
    forall i | 0 <= i < |users|
      ensures Matches(users[i], Trim(username), password) == Matches(users[i], username, password)
    {
    }
  }
}

=== FILE: seqs.dfy ===
/** Order-preserving list operations in the style of `Array.prototype.filter`
    and `Array.prototype.findIndex`, with the facts the rest of the model uses. */
module Seqs {

  /** `s.filter(p)`. */
  function Filter<T>(s: seq<T>, p: T -> bool): (r: seq<T>)
    ensures |r| <= |s|
    ensures forall i :: 0 <= i < |r| ==> r[i] in s && p(r[i])
    ensures forall i :: 0 <= i < |s| && p(s[i]) ==> s[i] in r
  {
    if |s| == 0 then [] else (if p(s[0]) then [s[0]] else []) + Filter(s[1..], p)
  }

  /** Filtering distributes over concatenation: kept elements stay in their original order. */
  lemma {:induction false} FilterConcat<T>(a: seq<T>, b: seq<T>, p: T -> bool)
    ensures Filter(a + b, p) == Filter(a, p) + Filter(b, p)
  {
    if |a| == 0 {
      assert a + b == b;
    } else {
      assert (a + b)[1..] == a[1..] + b;
      FilterConcat(a[1..], b, p);
    }
  }

  /** Every occurrence of a kept element survives, every occurrence of a dropped one goes. */
  lemma {:induction false} FilterMultiplicity<T>(s: seq<T>, p: T -> bool, x: T)
    ensures multiset(Filter(s, p))[x] == if p(x) then multiset(s)[x] else 0
  {
    if |s| > 0 {
      assert s == [s[0]] + s[1..];
      FilterMultiplicity(s[1..], p, x);
    }
  }

  /** When every element is kept, filtering is the identity. */
  lemma {:induction false} FilterKeepsAll<T>(s: seq<T>, p: T -> bool)
    requires forall i :: 0 <= i < |s| ==> p(s[i])
    ensures Filter(s, p) == s
  {
    if |s| > 0 {
      FilterKeepsAll(s[1..], p);
    }
  }

  /** Two lists of the same length that agree on which positions are kept,
      and agree at every kept position, filter to the same list. */
  lemma {:induction false} FilterAgree<T>(a: seq<T>, b: seq<T>, p: T -> bool)
    requires |a| == |b|
    requires forall i :: 0 <= i < |a| ==> (p(a[i]) <==> p(b[i]))
    requires forall i :: 0 <= i < |a| && p(a[i]) ==> a[i] == b[i]
    ensures Filter(a, p) == Filter(b, p)
  {
    if |a| > 0 {
      FilterAgree(a[1..], b[1..], p);
    }
  }

  /** No two elements of `s` share a key. */
  ghost predicate DistinctBy<T, K>(s: seq<T>, key: T -> K) {
    forall i, j :: 0 <= i < j < |s| ==> key(s[i]) != key(s[j])
  }

  /** Filtering never introduces a repeated key. */
  lemma {:induction false} FilterDistinctBy<T, K>(s: seq<T>, p: T -> bool, key: T -> K)
    requires DistinctBy(s, key)
    ensures DistinctBy(Filter(s, p), key)
  {
    if |s| > 0 {
      FilterDistinctBy(s[1..], p, key);
      var tail := Filter(s[1..], p);
      forall j | 0 <= j < |tail|
        ensures key(s[0]) != key(tail[j])
      {
        assert tail[j] in s[1..];
        var k :| 0 <= k < |s[1..]| && s[1..][k] == tail[j];
        assert s[k + 1] == tail[j];
      }
    }
  }

  /** `s.findIndex(p)`: the first index satisfying `p`, or -1. */
  function FindIndex<T>(s: seq<T>, p: T -> bool): (r: int)
    ensures -1 <= r < |s|
    ensures r >= 0 ==> p(s[r])
    ensures forall j :: 0 <= j < |s| && (r == -1 || j < r) ==> !p(s[j])
  {
    if |s| == 0 then -1
    else if p(s[0]) then 0
    else var k := FindIndex(s[1..], p); if k == -1 then -1 else k + 1
  }
}

=== FILE: server_view.dfy ===
/** The per-server page: which lifecycle buttons are offered, and how the
    children's callbacks are tagged with this page's server id. */
module ServerView {
  import opened Wrappers
  import opened Types

  datatype Action = Start | Stop | Restart

  /** The Start button is disabled only while the server is running. */
  predicate StartEnabled(status: ServerStatus): (r: bool)
    ensures r <==> status == Stopped || status == Starting || status == Suspended
  {
    status != Running
  }

  /** The Stop button is disabled only while the server is stopped. */
  predicate StopEnabled(status: ServerStatus): (r: bool)
    ensures r <==> status == Running || status == Starting || status == Suspended
  {
    status != Stopped
  }

  /** Both buttons are offered exactly in the two in-between states. */
  lemma BothButtonsWhileStartingOrSuspended(status: ServerStatus)
    ensures StartEnabled(status) && StopEnabled(status) <==> status == Starting || status == Suspended
    ensures StartEnabled(status) || StopEnabled(status)
  {
  }

  /** What the user does on the page. */
  datatype Intent =
    | PressStart
    | PressStop
    | FilesEdited(files: seq<FileEntry>)
    | SettingsSaved(startupCommand: string, mainFile: string)
    | DeleteConfirmed

  /** What the page asks its owner to do; every request names a server. */
  datatype Command =
    | ActionCommand(id: string, action: Action)
    | UpdateFilesCommand(id: string, files: seq<FileEntry>)
    | UpdateSettingsCommand(id: string, startupCommand: string, mainFile: string)
    | DeleteCommand(id: string)

  /** The callback an intent fires, if any: a click on a disabled button fires
      nothing, and every request carries the id of the server on show. */
  function Route(server: BotServer, intent: Intent): (r: Option<Command>)
    ensures r.Some? ==> r.value.id == server.id
    ensures intent.PressStart? ==> (r.Some? <==> StartEnabled(server.status))
    ensures intent.PressStop? ==> (r.Some? <==> StopEnabled(server.status))
    ensures !intent.PressStart? && !intent.PressStop? ==> r.Some?
    ensures intent.PressStart? && StartEnabled(server.status) ==> r == Some(ActionCommand(server.id, Start))
    ensures intent.PressStop? && StopEnabled(server.status) ==> r == Some(ActionCommand(server.id, Stop))
    ensures r.Some? && r.value.ActionCommand? ==>
              r.value.action == (if intent.PressStart? then Start else Stop)
    ensures intent.FilesEdited? ==> r.Some? && r.value.UpdateFilesCommand? && r.value.files == intent.files
    ensures intent.SettingsSaved? ==>
              r.Some? && r.value.UpdateSettingsCommand?
              && r.value.startupCommand == intent.startupCommand && r.value.mainFile == intent.mainFile
    ensures intent.DeleteConfirmed? ==> r.Some? && r.value.DeleteCommand?
  {
    match intent
    case PressStart => if StartEnabled(server.status) then Some(ActionCommand(server.id, Start)) else None
    case PressStop => if StopEnabled(server.status) then Some(ActionCommand(server.id, Stop)) else None
    case FilesEdited(files) => Some(UpdateFilesCommand(server.id, files))
    case SettingsSaved(cmd, file) => Some(UpdateSettingsCommand(server.id, cmd, file))
    case DeleteConfirmed => Some(DeleteCommand(server.id))
  }
}

=== FILE: types.dfy ===
/** The records the panel keeps in memory: hosted servers, their flat file
    lists and the authorised users. */
module Types {
  import opened Wrappers
  import opened Seqs

  /** The four lifecycle values a server can show. */
  datatype ServerStatus = Running | Stopped | Starting | Suspended

  /** A cpu (cores) / ram (MB) / disk (GB) triple, used for both limits and usage. */
  datatype ServerResource = ServerResource(cpu: real, ram: real, disk: real)

  datatype FileKind = File | Directory

  /** One node of a server's workspace. The tree exists only through the
      slash-separated `path`; `size` and `content` are optional. */
  datatype FileEntry = FileEntry(
    name: string,
    path: string,
    kind: FileKind,
    size: Option<int>,
    lastModified: string,
    content: Option<string>)

  /** A hosted instance; it owns its `files` list outright. */
  datatype BotServer = BotServer(
    id: string,
    name: string,
    owner: string,
    status: ServerStatus,
    limits: ServerResource,
    usage: ServerResource,
    startupCommand: string,
    mainFile: string,
    port: int,
    liveUrl: string,
    files: seq<FileEntry>)

  /** An entry of the authorised-user list. */
  datatype User = User(username: string, passwordHash: string)

  /** The screens the shell can show. */
  datatype View = DashboardView | ConsoleView | ShellView | FileManagerView | SettingsView | AdminView

  /** The key a workspace is indexed by. */
  function PathOf(f: FileEntry): string {
    f.path
  }

  /** No two entries of a workspace share a path. */
  ghost predicate UniquePaths(files: seq<FileEntry>) {
    DistinctBy(files, PathOf)
  }

  /** Some entry of the workspace sits at `path`. */
  predicate PathTaken(files: seq<FileEntry>, path: string) {
    exists i :: 0 <= i < |files| && files[i].path == path
  }
}

=== FILE: wrappers.dfy ===
/** Optional values and success/failure results shared by every module.
    `Option` stands for the source's `T | null` and `T | undefined`. */
module Wrappers {

  datatype Option<+T> = None | Some(value: T)

  datatype Result<+R, +E> = Success(value: R) | Failure(error: E)
}
